=== FILE: README.md ===
# Todo list state transitions

A model of the one React component (`App`) of a small todo-list app. The
component keeps an ordered list of items `{ id, description, checked }` and a
`filterButton` flag, and answers four user actions: submitting the text field
(add an item), clicking a row's checkbox (toggle it, and possibly launch a
"celebration" animation), clicking a row's remove icon, and clicking the filter
control. It renders the items whose `checked` equals the flag, newest first.

The model turns each handler into a pure function over `seq<Item>`:

- `js_array.dfy` (module `JsArray`): the `Array.prototype` methods the
  component uses — `findIndex`, `every`, `filter`, `toReversed`, `splice` — with
  their JavaScript edge cases (-1 from `findIndex`, `every` true on `[]`,
  negative `splice` starts counted from the end).
- `js_string.dfy` (module `JsString`): `String.prototype.trim`, with the
  ECMAScript WhiteSpace and LineTerminator code points.
- `todos.dfy` (module `Todos`): `Item`, the submit, checkbox and remove handlers
  (`Add`, `HandleChecked`/`Toggle`, `Remove`), id assignment (`NextId`), and the
  rendered subsequence (`Visible`), with their lemmas.
- `app.dfy` (module `App`): the component state, one `Step` per user event,
  `Run` over event sequences, what one render shows (`Render`), and worked
  scenarios.

Behaviour of the code worth knowing before reading the model:

- A new id is the last item's id + 1 (1 on an empty list). On a list with
  increasing ids that is the largest id + 1 (`Todos.NextId`). Starting from a
  loaded list whose ids increase, every event keeps them increasing
  (`App.RunKeepsIdsIncreasing`), so ids in the list stay distinct; a loaded
  list that breaks this is taken as it is. After the newest item is removed,
  the next id is one more than the new last item's
  (`App.NextIdAfterRemovingNewest`), so removing the newest item reissues its
  id when the id below it is one less (`App.IdReusedAfterRemovingNewest`), and
  numbering restarts at 1 once the list is emptied.
- Removing an id that no item has is not a no-op: `findIndex` gives -1 and
  `splice(-1, 1)` drops the last item (`Todos.RemoveAbsentDropsLast`). Absent
  ids are not ruled out by the UI: a removed row stays mounted while it fades
  out, and its remove icon still calls the handler with its id.
- The stagger anchor of the celebration is taken from the list before the
  toggle. Whenever the celebration fires with an anchor other than -1, the
  anchor is the clicked item's position in the full, creation-ordered list
  (`Todos.CelebrationAnchorIsClickedItem`). It is -1 exactly when everything
  was already checked and the click named no item
  (`Todos.CelebrationWithoutAnchor`). This includes a click on an empty list,
  where `every` holds vacuously.
- When the list is non-empty but no item matches the filter, the list area
  shows neither rows nor the placeholder (`App.Render`).

## Model

| member | source | states |
|---|---|---|
| JsArray.FindIndex | src/App.jsx:81 | the result is -1 iff no element satisfies the predicate, and otherwise the first index that does |
| JsArray.Every | src/App.jsx:50 | the scan is true iff every element satisfies the predicate, vacuously on the empty array |
| JsArray.Filter | src/App.jsx:121 | the result holds exactly the elements that satisfy the predicate and is a sub-multiset of the input; order and multiplicities are stated by `JsArray.FilterAppend` and `JsArray.FilterCounts` |
| JsArray.FilterCounts | src/App.jsx:121 | each satisfying element occurs in the result exactly as often as in the input, and other elements not at all |
| JsArray.FilterAppend | src/App.jsx:121 | filtering a concatenation is the concatenation of the filtered parts, so the original order is kept |
| JsArray.FilterPartition | src/App.jsx:121 | filtering by a predicate and by its negation together yield every element exactly as many times as the input holds it |
| JsArray.Reversed | src/App.jsx:122 | position i of the result is position len-1-i of the input, and the multiset of elements is unchanged |
| JsArray.ReversedSameElements | src/App.jsx:122 | reversing keeps the same set of elements |
| JsArray.ReversedAppend | src/App.jsx:122 | reversing a concatenation puts the reversed second part first |
| JsArray.SpliceDeleteCount | src/App.jsx:80-83 | the number removed is at most the elements after the clamped start and at most `deleteCount`, and at least one when the start is inside the array and `deleteCount` >= 1 |
| JsArray.Splice | src/App.jsx:80-83 | exactly `SpliceDeleteCount` elements are removed; the result agrees with the input before the clamped start and continues with the input's tail after the cut |
| JsArray.SpliceOneAt | src/App.jsx:80-83 | `splice(k, 1)` at an in-range k deletes exactly element k: length drops by one and the removed element is the only multiset difference |
| JsArray.SpliceMinusOne | src/App.jsx:80-83 | `splice(-1, 1)` deletes the last element of a non-empty array and nothing of an empty one |
| JsString.LeadingBlanks | src/App.jsx:26 | the count covers a run of whitespace/line terminators at the front that stops at the first other character |
| JsString.TrailingBlanks | src/App.jsx:26 | the count covers a run of whitespace/line terminators at the back that stops at the last other character |
| JsString.Trim | src/App.jsx:26 | the trimmed text is empty iff the input is all whitespace/line terminators, and otherwise neither starts nor ends with one |
| JsString.TrimPieces | src/App.jsx:26 | `Trim`'s result is exactly the piece of the input after its leading blank run, and what follows that piece is blank too, so nothing but the two blank runs is dropped |
| Todos.IncreasingIdsAreDistinct | src/App.jsx:131 | strictly increasing ids are pairwise distinct, so the row keys are unique |
| Todos.IndexOfId | src/App.jsx:81 | the index is -1 iff no item has the id, and otherwise the first position holding it |
| Todos.NextId | src/App.jsx:32 | the new id is 1 on an empty list, else one more than the last item's id; on increasing ids it exceeds every id present (it is max + 1) |
| Todos.Add | src/App.jsx:26-36 | blank input leaves the list unchanged; other input appends one unchecked item with the untrimmed text and the next id, keeps every earlier item, and keeps ids increasing |
| Todos.Toggle | src/App.jsx:43-46 | length, order, ids and descriptions are kept, and `checked` changes exactly on the items whose id matches |
| Todos.ToggleTwice | src/App.jsx:43-46 | toggling the same id twice gives back the original list |
| Todos.ToggleAbsent | src/App.jsx:43-46 | toggling an id no item has gives back the same list |
| Todos.ToggleChangesOne | src/App.jsx:43-46 | with distinct ids, only the item at the id's position changes, and only its flag |
| Todos.TogglePreservesIds | src/App.jsx:43-46 | the toggled list has increasing ids iff the original does |
| Todos.HandleChecked | src/App.jsx:42-51 | the celebration fires iff every item of the toggled list is checked; its anchor is -1 iff all were checked before, else the first unchecked index of the old list, which holds the clicked id |
| Todos.CelebrationAnchorIsClickedItem | src/App.jsx:50-51 | with distinct ids, a celebration anchored at k >= 0 is anchored at the clicked item's index |
| Todos.CelebrationWithoutAnchor | src/App.jsx:50-51 | the celebration fires with anchor -1 iff every item was already checked and no item has the clicked id |
| Todos.CelebratesIffLastUnchecked | src/App.jsx:50-51 | with distinct ids, a celebration with a real anchor fires iff the clicked item was unchecked and every other item checked |
| Todos.Remove | src/App.jsx:79-84 | with the id present at first index k the result is the list without element k (one shorter, the rest in order); with the id absent the result is one shorter unless the list is empty |
| Todos.RemoveAbsentDropsLast | src/App.jsx:80-83 | an absent id drops the last item of a non-empty list and leaves an empty list empty |
| Todos.RemoveDeletesOnlyTarget | src/App.jsx:79-84 | with distinct ids, after removing a present id no item has it and every other item is still there |
| Todos.RemoveNewest | src/App.jsx:79-84 | with distinct ids, removing the newest item's id leaves the list without its last element |
| Todos.DeleteAtKeepsIncreasing | src/App.jsx:80-83 | cutting one element out keeps ids increasing |
| Todos.RemovePreservesIncreasing | src/App.jsx:79-84 | remove keeps ids increasing, for present and absent ids alike |
| Todos.Visible | src/App.jsx:119-122 | an item is shown iff it is in the list and its `checked` equals the filter flag, and the view is a sub-multiset of the list; order and multiplicities are stated by `Todos.VisibleAppend` and `Todos.VisibleCounts` |
| Todos.VisibleCounts | src/App.jsx:119-122 | each matching item is shown exactly as often as it occurs in the list, and other items not at all |
| Todos.VisibleAppend | src/App.jsx:119-122 | for every list, an item appended at the end appears at the front of the view when it matches the flag, ahead of the unchanged view of the rest (reverse list order) |
| Todos.VisiblePartition | src/App.jsx:119-122 | the pending and done views share no item and together hold every item exactly as often as the list |
| Todos.FilterKeepsIdOrder | src/App.jsx:121 | filtering a list with increasing ids keeps them increasing |
| Todos.VisibleNewestFirst | src/App.jsx:119-122 | on increasing ids the shown ids strictly decrease (reverse creation order) |
| App.Start | src/App.jsx:8-17 | after mounting, the list is the loaded one, the filter flag is false (pending view) and the field is empty |
| App.FlipFilter | src/App.jsx:111 | the flag is negated and the list and the field are unchanged |
| App.FlipFilterTwice | src/App.jsx:111 | flipping the filter twice restores the state |
| App.Step | src/App.jsx:23-111 | typing sets the field; a submit applies `Todos.Add` to the field's text and clears the field; a checkbox applies `Todos.Toggle` and a remove icon `Todos.Remove` to the clicked id, both leaving the field alone; the filter control negates the flag and changes nothing else, and no other event changes the flag; typing and the filter keep the list; every event keeps ids increasing |
| App.RunKeepsIdsIncreasing | src/App.jsx:23-84 | any sequence of events from a list with increasing ids keeps them increasing and distinct |
| App.Render | src/App.jsx:105-162 | the filter control and the rows appear iff the list is non-empty, the placeholder iff it is empty; the rows are the `Todos.Visible` view (items matching the flag, in reverse list order), with strictly decreasing ids when ids increase |
| App.SubmitBlankIgnored | src/App.jsx:26-39 | submitting a blank field only clears it |
| App.FirstSubmit | src/App.jsx:29-36 | the first task submitted into an empty list becomes item 1, unchecked |
| App.CheckOnlyItem | src/App.jsx:42-51 | checking the only item of a list checks it and celebrates anchored at 0 |
| App.AddCheckRemoveScenario | src/App.jsx:23-84 | add a task, submit a blank field (no change), check it (celebrates at 0), remove it (empty list) |
| App.TwoItemCelebration | src/App.jsx:42-51 | on two pending items, checking the first is quiet, and checking the second then celebrates anchored at index 1 |
| App.NextIdAfterRemovingNewest | src/App.jsx:32 | after removing the newest item from a list with increasing ids, a new task gets one more than the id of the item now last, and the list is back to its old length |
| App.IdReusedAfterRemovingNewest | src/App.jsx:32 | when the two newest ids are consecutive, removing the newest and adding a task reissues its id |

## Left out

- Loading and saving the list with `localStorage` and JSON (src/App.jsx:15-21). This is I/O. `Start` takes the loaded list as a parameter. A missing key makes `JSON.parse` give `null` and the component fail; that case is not modelled.
- `Math.random()` and the choice among the three animation styles and their timings (src/App.jsx:52-75). It is nondeterministic and cosmetic. The model returns only whether the celebration fires and the index its stagger starts from.
- The framer-motion calls (`animate`, `stagger`, `AnimatePresence`, `motion.div` layout and enter/exit transitions). These belong to a foreign animation library.
- React hooks and refs, DOM events, JSX markup, styling classes, the icon, the filter control's colour and `console.log`. These are UI plumbing. The text field's value is the `input` field of `App.AppState`, and clearing it is part of `App.Step`.
- Ids are unbounded integers. JavaScript numbers are doubles, so `id + 1` stops increasing past 2^53. This limit is not modelled.
- `JsString.Trim` works on Unicode scalar values, while JavaScript strings are UTF-16 code units. All trimmable characters lie in the Basic Multilingual Plane, so blankness is the same either way.
- The remove handler splices the state array in place (src/App.jsx:80-84) before copying it. `Todos.Remove` returns a new list and leaves its input alone.
- `App.Step` applies every event to the latest list. A row that is still mounted while it fades out holds the handler of an earlier render, which acts on that render's list (the same array object the earlier removal already spliced). The model does not track which render a handler came from.
- The celebration anchor is a position in the full list. The animation applies it to the checkboxes rendered at that moment, which are the filtered, reversed rows. The model does not relate the anchor to positions among the rendered rows.
- Events are accepted in any state. The UI offers checkboxes and remove icons only for shown rows, and the filter control only on a non-empty list. `App.Step` does not restrict events to these.

=== FILE: app.dfy ===
/** The `App` component as a state machine: its state (the list, the filter
    flag and the text field), the user events its handlers answer, and what
    one render shows. Storage and animation are left to the caller. */
module App {
  import opened Todos

  /** `todos` and `filterButton` are the component's two pieces of state;
      `input` is the current value of the text field the submit handler
      reads. */
  datatype AppState = AppState(todos: TodoList, filterButton: bool, input: string)

  /** The state right after mounting, with the list taken as loaded: the
      filter shows pending items and the field is empty. */
  function Start(loaded: TodoList): (r: AppState)
    ensures r.todos == loaded && !r.filterButton && |r.input| == 0
  {
    AppState(loaded, false, "")
  }

  datatype Event =
    | Typed(text: string)     // the user edits the text field
    | Submitted               // the form is submitted
    | Clicked(id: int)        // the checkbox of the row with this id
    | RemoveClicked(id: int)  // the remove icon of the row with this id
    | FilterClicked           // the filter control

  /** The filter control's handler: the flag is negated and nothing else in
      the state changes. */
  function FlipFilter(s: AppState): (r: AppState)
    ensures r.filterButton != s.filterButton
    ensures r.todos == s.todos && r.input == s.input
  {
    s.(filterButton := !s.filterButton)
  }

  lemma FlipFilterTwice(s: AppState)
    ensures FlipFilter(FlipFilter(s)) == s
  {
  }

  /** One event, routed to its handler: typing sets the field, a submit
      hands the field to the submit handler and then clears it whether or
      not an item was added, a checkbox or a remove icon hands its row's id
      to that handler, and only the filter control changes the flag. */
  function Step(s: AppState, e: Event): (r: AppState)
    ensures e.Typed? ==> r.input == e.text
    ensures e.Submitted? ==> r.todos == Add(s.todos, s.input) && |r.input| == 0
    ensures e.Clicked? ==> r.todos == Toggle(s.todos, e.id)
    ensures e.RemoveClicked? ==> r.todos == Remove(s.todos, e.id)
    ensures e.Clicked? || e.RemoveClicked? || e.FilterClicked? ==> r.input == s.input
    ensures e.FilterClicked? ==> r == FlipFilter(s)
    ensures !e.FilterClicked? ==> r.filterButton == s.filterButton
    ensures e.FilterClicked? || e.Typed? ==> r.todos == s.todos
    ensures e.Clicked? ==> |r.todos| == |s.todos|
    ensures IdsIncreasing(s.todos) ==> IdsIncreasing(r.todos)
  {
    match e
    case Typed(text) => s.(input := text)
    case Submitted => s.(todos := Add(s.todos, s.input), input := "")
    case Clicked(id) => s.(todos := HandleChecked(s.todos, id).todos)
    case RemoveClicked(id) =>
      RemovePreservesIncreasing(s.todos, id);
      s.(todos := Remove(s.todos, id))
    case FilterClicked => FlipFilter(s)
  }

  /** The state after a sequence of events, in order. */
  function Run(s: AppState, events: seq<Event>): AppState
    decreases |events|
  {
    if |events| == 0 then s else Run(Step(s, events[0]), events[1..])
  }

  /** Any sequence of events keeps ids increasing, hence keys distinct. */
  lemma {:induction false} RunKeepsIdsIncreasing(s: AppState, events: seq<Event>)
    requires IdsIncreasing(s.todos)
    ensures IdsIncreasing(Run(s, events).todos)
    ensures IdsDistinct(Run(s, events).todos)
    decreases |events|
  {
    if |events| == 0 {
      IncreasingIdsAreDistinct(s.todos);
    } else {
      RunKeepsIdsIncreasing(Step(s, events[0]), events[1..]);
    }
  }

  /** What the list area shows: the placeholder prompt, or the rows. */
  datatype ListArea = Placeholder | Rows(items: seq<Item>)

  /** One render: whether the filter control is there, and the list area. */
  datatype Screen = Screen(filterControl: bool, list: ListArea)

  /** The filter control and the rows appear exactly when the list is not
      empty, and the placeholder exactly when it is. A non-empty list whose
      items all fail the filter shows no rows and no placeholder. */
  function Render(s: AppState): (v: Screen)
    ensures v.filterControl <==> |s.todos| > 0
    ensures v.list.Placeholder? <==> |s.todos| == 0
    ensures v.list.Rows? ==>
      forall x :: x in v.list.items <==> x in s.todos && x.checked == s.filterButton
    ensures v.list.Rows? ==> v.list.items == Visible(s.todos, s.filterButton)
    ensures v.list.Rows? && IdsIncreasing(s.todos) ==>
      forall i, j :: 0 <= i < j < |v.list.items| ==> v.list.items[i].id > v.list.items[j].id
  {
    if |s.todos| > 0 then
      VisibleNewestFirst(s.todos, s.filterButton);
      Screen(true, Rows(Visible(s.todos, s.filterButton)))
    else
      Screen(false, Placeholder)
  }

  // ------------------------------------------------------------- scenarios

  /** Submitting a blank field only clears it. */
  lemma SubmitBlankIgnored(s: AppState)
    requires JsString.IsBlank(s.input)
    ensures Step(s, Submitted) == s.(input := "")
  {
  }

  /** The first task typed and submitted into an empty list gets id 1. */
  lemma FirstSubmit(task: string)
    requires !JsString.IsBlank(task)
    ensures Step(Step(Start([]), Typed(task)), Submitted) == AppState([Item(1, task, false)], false, "")
  {
    var s0 := Step(Start([]), Typed(task));
    assert s0 == AppState([], false, task);
    assert Step(s0, Submitted).todos == Add([], task);
  }

  /** Checking the only item of a list celebrates, anchored at index 0. */
  lemma CheckOnlyItem(task: string)
    ensures HandleChecked([Item(1, task, false)], 1)
         == CheckOutcome([Item(1, task, true)], Celebrate(0))
  {
    var one := [Item(1, task, false)];
    var after := [Item(1, task, true)];
    assert Toggle(one, 1)[0] == after[0];
    assert AllChecked(after);
    assert !one[0].checked;
  }

  /** Adding a task such as "Buy milk" to an empty list gives it id 1;
      submitting an empty field then changes nothing; checking the item
      celebrates, anchored at index 0; removing it empties the list. */
  lemma AddCheckRemoveScenario(task: string)
    requires !JsString.IsBlank(task)
    ensures var s1 := Step(Step(Start([]), Typed(task)), Submitted);
      && s1.todos == [Item(1, task, false)]
      && Step(Step(s1, Typed("")), Submitted).todos == s1.todos
      && HandleChecked(s1.todos, 1) == CheckOutcome([Item(1, task, true)], Celebrate(0))
      && Step(Step(s1, Clicked(1)), RemoveClicked(1)).todos == []
  {
    var one := [Item(1, task, false)];
    var after := [Item(1, task, true)];
    var s1 := AppState(one, false, "");
    FirstSubmit(task);
    assert Step(Step(s1, Typed("")), Submitted).todos == one by {
      assert Step(s1, Typed("")) == s1;
      SubmitBlankIgnored(s1);
    }
    CheckOnlyItem(task);
    assert Step(Step(s1, Clicked(1)), RemoveClicked(1)).todos == [] by {
      var s2 := Step(s1, Clicked(1));
      assert s2.todos == after;
      RemoveNewest(after);
      assert Step(s2, RemoveClicked(1)).todos == Remove(after, 1);
    }
  }

  /** Two pending items: checking the first celebrates nothing; checking the
      second then celebrates, anchored at the second item. */
  lemma TwoItemCelebration()
    ensures var l := [Item(1, "a", false), Item(2, "b", false)];
      && HandleChecked(l, 1).celebration == Quiet
      && HandleChecked(HandleChecked(l, 1).todos, 2).celebration == Celebrate(1)
  {
    var l := [Item(1, "a", false), Item(2, "b", false)];
    var l1 := [Item(1, "a", true), Item(2, "b", false)];
    assert Toggle(l, 1) == l1;
    assert !l1[1].checked;
    var l2 := [Item(1, "a", true), Item(2, "b", true)];
    assert Toggle(l1, 2) == l2;
    assert AllChecked(l2);
    assert l1[0].checked;
  }

  /** After the newest item is removed, the next task gets one more than the
      id of the item that is now last, whatever the removed id was. */
  lemma NextIdAfterRemovingNewest(todos: TodoList, task: string)
    requires IdsIncreasing(todos) && |todos| >= 2
    requires !JsString.IsBlank(task)
    ensures var r := Add(Remove(todos, todos[|todos| - 1].id), task);
      && |r| == |todos|
      && r[|r| - 1] == Item(todos[|todos| - 2].id + 1, task, false)
  {
    IncreasingIdsAreDistinct(todos);
    RemoveNewest(todos);
  }

  /** Ids are not reserved for good: when the two newest items have
      consecutive ids, removing the newest and adding another task hands its
      id out again, since the next id follows the last item rather than the
      largest id ever issued. */
  lemma IdReusedAfterRemovingNewest(todos: TodoList, task: string)
    requires IdsIncreasing(todos) && |todos| >= 2
    requires todos[|todos| - 1].id == todos[|todos| - 2].id + 1
    requires !JsString.IsBlank(task)
    ensures var newest := todos[|todos| - 1];
      var r := Add(Remove(todos, newest.id), task);
      && |r| == |todos|
      && r[|r| - 1] == Item(newest.id, task, false)
  {
    IncreasingIdsAreDistinct(todos);
    RemoveNewest(todos);
  }
}

=== FILE: js_array.dfy ===
/** The Array.prototype operations the todo component relies on, as pure
    functions over sequences that keep JavaScript's edge-case behaviour:
    `findIndex` answers -1 when nothing matches, `every` holds of the empty
    array, and `splice` counts a negative start back from the end. */
module JsArray {

  /** `s.findIndex(p)`: the first index whose element satisfies `p`, or -1. */
  function FindIndex<T>(s: seq<T>, p: T -> bool): (k: int)
    ensures -1 <= k < |s|
    ensures k == -1 <==> forall i :: 0 <= i < |s| ==> !p(s[i])
    ensures 0 <= k ==> p(s[k]) && forall i :: 0 <= i < k ==> !p(s[i])
  {
    if |s| == 0 then -1
    else if p(s[0]) then 0
    else
      var k := FindIndex(s[1..], p);
      if k == -1 then -1 else k + 1
  }

  /** `s.every(p)`: a left-to-right scan that stops at the first failure. */
  function Every<T>(s: seq<T>, p: T -> bool): (b: bool)
    ensures b <==> forall i :: 0 <= i < |s| ==> p(s[i])
  {
    |s| == 0 || (p(s[0]) && Every(s[1..], p))
  }

  /** `s.filter(p)`: the elements satisfying `p`, in their original order. */
  function Filter<T(!new)>(s: seq<T>, p: T -> bool): (r: seq<T>)
    ensures |r| <= |s|
    ensures forall x :: x in r <==> x in s && p(x)
    ensures multiset(r) <= multiset(s)
  {
    if |s| == 0 then []
    else
      assert s == [s[0]] + s[1..];
      (if p(s[0]) then [s[0]] else []) + Filter(s[1..], p)
  }

  /** One step of `Filter`: the first element is kept or dropped, and the
      rest is filtered. */
  lemma FilterFront<T(!new)>(s: seq<T>, p: T -> bool)
    requires |s| > 0
    ensures Filter(s, p) == (if p(s[0]) then [s[0]] else []) + Filter(s[1..], p)
  {
  }

  /** Filtering keeps every occurrence of a satisfying element and none of
      the others. */
  lemma {:induction false} FilterCounts<T(!new)>(s: seq<T>, p: T -> bool, x: T)
    ensures multiset(Filter(s, p))[x] == if p(x) then multiset(s)[x] else 0
  {
    if |s| > 0 {
      FilterCounts(s[1..], p, x);
      FilterFront(s, p);
      ConsCount(s, x);
    }
  }

  /** The count of `x` in `s` is that of its head plus that of its tail. */
  lemma ConsCount<T>(s: seq<T>, x: T)
    requires |s| > 0
    ensures multiset(s)[x] == (if s[0] == x then 1 else 0) + multiset(s[1..])[x]
  {
    assert s == [s[0]] + s[1..];
  }

  /** Filtering works element by element from the front, so it keeps the
      original order: filtering a concatenation concatenates the filtered
      parts. */
  lemma {:induction false} FilterAppend<T(!new)>(s1: seq<T>, s2: seq<T>, p: T -> bool)
    ensures Filter(s1 + s2, p) == Filter(s1, p) + Filter(s2, p)
  {
    if |s1| > 0 {
      var s := s1 + s2;
      var head := if p(s1[0]) then [s1[0]] else [];
      assert s[0] == s1[0];
      assert s[1..] == s1[1..] + s2;
      FilterFront(s, p);
      FilterFront(s1, p);
      FilterAppend(s1[1..], s2, p);
      calc {
        Filter(s, p);
        head + Filter(s1[1..] + s2, p);
        head + (Filter(s1[1..], p) + Filter(s2, p));
        (head + Filter(s1[1..], p)) + Filter(s2, p);
        Filter(s1, p) + Filter(s2, p);
      }
    } else {
      assert s1 + s2 == s2;
    }
  }

  /** Sending the head of `s` to one side and splitting the tail `f`/`g`
      splits all of `s`. */
  lemma SplitStep<T>(s: seq<T>, left: bool, f: seq<T>, g: seq<T>)
    requires |s| > 0 && multiset(f) + multiset(g) == multiset(s[1..])
    ensures multiset((if left then [s[0]] else []) + f)
          + multiset((if left then [] else [s[0]]) + g) == multiset(s)
  {
    assert s == [s[0]] + s[1..];
  }

  /** Filtering by a predicate and by its negation splits the array: every
      element lands in exactly one of the two results. */
  lemma {:induction false} FilterPartition<T(!new)>(s: seq<T>, p: T -> bool, q: T -> bool)
    requires forall x :: q(x) == !p(x)
    ensures multiset(Filter(s, p)) + multiset(Filter(s, q)) == multiset(s)
  {
    if |s| > 0 {
      FilterPartition(s[1..], p, q);
      FilterFront(s, p);
      FilterFront(s, q);
      SplitStep(s, p(s[0]), Filter(s[1..], p), Filter(s[1..], q));
    }
  }

  /** `s.toReversed()`: the same elements, last first. */
  function Reversed<T>(s: seq<T>): (r: seq<T>)
    ensures |r| == |s|
    ensures forall i :: 0 <= i < |s| ==> r[i] == s[|s| - 1 - i]
    ensures multiset(r) == multiset(s)
  {
    if |s| == 0 then []
    else
      assert s == [s[0]] + s[1..];
      Reversed(s[1..]) + [s[0]]
  }

  /** Index-wise, the reversal of `a + b` is the reversal of `b` followed by
      that of `a`: any three sequences that list their inputs back to front
      are related that way. */
  lemma BackToFrontAppend<T>(a: seq<T>, b: seq<T>, l: seq<T>, rb: seq<T>, ra: seq<T>)
    requires |l| == |a| + |b| && |rb| == |b| && |ra| == |a|
    requires forall i :: 0 <= i < |l| ==> l[i] == (a + b)[|a| + |b| - 1 - i]
    requires forall i :: 0 <= i < |b| ==> rb[i] == b[|b| - 1 - i]
    requires forall i :: 0 <= i < |a| ==> ra[i] == a[|a| - 1 - i]
    ensures l == rb + ra
  {
    forall i | 0 <= i < |l|
      ensures l[i] == (rb + ra)[i]
    {
      if i < |b| {
        assert l[i] == b[|b| - 1 - i] == rb[i];
      } else {
        assert l[i] == a[|a| + |b| - 1 - i] == ra[i - |b|];
      }
    }
  }

  /** Reversing a concatenation reverses the order of the parts. */
  lemma ReversedAppend<T>(a: seq<T>, b: seq<T>)
    ensures Reversed(a + b) == Reversed(b) + Reversed(a)
  {
    BackToFrontAppend(a, b, Reversed(a + b), Reversed(b), Reversed(a));
  }

  lemma ReversedSameElements<T>(s: seq<T>)
    ensures forall x :: x in Reversed(s) <==> x in s
  {
    var r := Reversed(s);
    forall x
      ensures x in r <==> x in s
    {
      assert x in r <==> x in multiset(r);
    }
  }

  /** The position `splice` starts at: a negative start counts back from the
      end of the array, and the result is clamped into 0..len. */
  function SpliceStart(len: nat, start: int): (a: nat)
    ensures a <= len
    ensures start < 0 && -start <= len ==> a + (-start) == len
    ensures 0 <= start <= len ==> a == start
  {
    if start < 0 then (if len + start < 0 then 0 else len + start)
    else if start > len then len
    else start
  }

  /** How many elements `splice` removes: `deleteCount`, clamped into
      0..(elements from the start position to the end). */
  function SpliceDeleteCount(len: nat, start: int, deleteCount: int): (d: nat)
    ensures d <= len - SpliceStart(len, start)
    ensures d <= deleteCount || d == 0
    ensures SpliceStart(len, start) < len && deleteCount >= 1 ==> d >= 1
  {
    var a := SpliceStart(len, start);
    if deleteCount < 0 then 0 else if deleteCount > len - a then len - a else deleteCount
  }

  /** The array that `s.splice(start, deleteCount)` leaves behind: exactly
      `SpliceDeleteCount` elements are cut out at the clamped start position,
      and the rest keep their order. */
  function Splice<T>(s: seq<T>, start: int, deleteCount: int): (r: seq<T>)
    ensures |r| == |s| - SpliceDeleteCount(|s|, start, deleteCount)
    ensures deleteCount <= 0 ==> r == s
    ensures
      var a := SpliceStart(|s|, start);
      a <= |r| && r[..a] == s[..a] && r[a..] == s[|s| - |r| + a..]
  {
    var a := SpliceStart(|s|, start);
    var d := SpliceDeleteCount(|s|, start, deleteCount);
    s[..a] + s[a + d..]
  }

  /** `splice(k, 1)` at an index inside the array deletes exactly that element. */
  lemma SpliceOneAt<T>(s: seq<T>, k: int)
    requires 0 <= k < |s|
    ensures Splice(s, k, 1) == s[..k] + s[k + 1..]
    ensures |Splice(s, k, 1)| == |s| - 1
    ensures multiset(Splice(s, k, 1)) + multiset{s[k]} == multiset(s)
  {
    assert s == s[..k] + [s[k]] + s[k + 1..];
  }

  /** `splice(-1, 1)` deletes the last element, and nothing of an empty array. */
  lemma SpliceMinusOne<T>(s: seq<T>)
    ensures |s| > 0 ==> Splice(s, -1, 1) == s[..|s| - 1]
    ensures |s| == 0 ==> Splice(s, -1, 1) == []
  {
  }
}

=== FILE: js_string.dfy ===
/** ECMAScript's `String.prototype.trim`, which the submit handler uses to
    reject blank input. It strips, from both ends, the code points of the
    language's WhiteSpace and LineTerminator productions. */
module JsString {

  /** The WhiteSpace code points (tab, vertical tab, form feed, space,
      no-break space, zero-width no-break space and the other Unicode space
      separators) and the LineTerminator code points (line feed, carriage
      return, line separator, paragraph separator). */
  predicate IsTrimmable(c: char) {
    || c == '\t' || c == '\n' || c == '\U{000B}' || c == '\U{000C}' || c == '\r'
    || c == ' ' || c == '\U{00A0}' || c == '\U{1680}'
    || ('\U{2000}' <= c <= '\U{200A}')
    || c == '\U{2028}' || c == '\U{2029}' || c == '\U{202F}' || c == '\U{205F}'
    || c == '\U{3000}' || c == '\U{FEFF}'
  }

  /** A string made only of trimmable characters (the empty string included). */
  predicate IsBlank(s: string) {
    forall i :: 0 <= i < |s| ==> IsTrimmable(s[i])
  }

  /** How many trimmable characters `s` starts with. */
  function LeadingBlanks(s: string): (n: nat)
    ensures n <= |s|
    ensures forall i :: 0 <= i < n ==> IsTrimmable(s[i])
    ensures n < |s| ==> !IsTrimmable(s[n])
  {
    if |s| > 0 && IsTrimmable(s[0]) then 1 + LeadingBlanks(s[1..]) else 0
  }

  /** How many trimmable characters `s` ends with. */
  function TrailingBlanks(s: string): (n: nat)
    ensures n <= |s|
    ensures forall i :: |s| - n <= i < |s| ==> IsTrimmable(s[i])
    ensures n < |s| ==> !IsTrimmable(s[|s| - 1 - n])
  {
    if |s| > 0 && IsTrimmable(s[|s| - 1]) then 1 + TrailingBlanks(s[..|s| - 1]) else 0
  }

  /** `s.trim()`: what is left once the blank runs at both ends are cut off
      (`TrimPieces` shows it is exactly the piece of `s` between them). It
      neither starts nor ends with a trimmable character, and it is empty
      exactly when `s` is blank. */
  function Trim(s: string): (r: string)
    ensures |r| <= |s|
    ensures |r| > 0 ==> !IsTrimmable(r[0]) && !IsTrimmable(r[|r| - 1])
    ensures |r| == 0 <==> IsBlank(s)
  {
    var a := LeadingBlanks(s);
    if a == |s| then ""
    else
      // `s[a]` is kept, so the trailing run ends after it.
      var b := |s| - TrailingBlanks(s);
      assert a < b;
      s[a..b]
  }

  /** `s.trim()` cuts `s` into a blank prefix, the trimmed text, and a blank
      suffix: the result is the piece of `s` between the two blank runs, and
      nothing else is dropped. */
  lemma TrimPieces(s: string)
    ensures var r := Trim(s); var a := LeadingBlanks(s);
      && a + |r| <= |s|
      && s[a..a + |r|] == r && IsBlank(s[..a]) && IsBlank(s[a + |r|..])
  {
    var r := Trim(s);
    var a := LeadingBlanks(s);
    var b := if a == |s| then a else |s| - TrailingBlanks(s);
    assert r == s[a..b];
    var head, tail := s[..a], s[b..];
    forall i | 0 <= i < |head|
      ensures IsTrimmable(head[i])
    {
      assert head[i] == s[i];
    }
    forall i | 0 <= i < |tail|
      ensures IsTrimmable(tail[i])
    {
      assert tail[i] == s[b + i];
    }
  }
}

=== FILE: todos.dfy ===
/** The todo list held by the `App` component and the three event handlers
    that replace it (submit, checkbox, remove), plus the filtered view the
    component renders. Every handler is a pure function from the current list
    to the next one. */
module Todos {
  import opened JsArray
  import opened JsString

  /** One task: the id it was given on creation, the text as typed, and
      whether it is done. */
  datatype Item = Item(id: int, description: string, checked: bool)

  type TodoList = seq<Item>

  /** Ids strictly increase along the list, which is what creating items
      one after another at the end produces. */
  predicate IdsIncreasing(todos: TodoList) {
    forall i, j :: 0 <= i < j < |todos| ==> todos[i].id < todos[j].id
  }

  /** No two items share an id (the `key` the renderer gives each row). */
  predicate IdsDistinct(todos: TodoList) {
    forall i, j :: 0 <= i < |todos| && 0 <= j < |todos| && i != j ==> todos[i].id != todos[j].id
  }

  predicate HasId(todos: TodoList, id: int) {
    exists i :: 0 <= i < |todos| && todos[i].id == id
  }

  predicate AllChecked(todos: TodoList) {
    forall i :: 0 <= i < |todos| ==> todos[i].checked
  }

  lemma IncreasingIdsAreDistinct(todos: TodoList)
    requires IdsIncreasing(todos)
    ensures IdsDistinct(todos)
  {
    forall i, j | 0 <= i < |todos| && 0 <= j < |todos| && i != j
      ensures todos[i].id != todos[j].id
    {
      if i < j { assert todos[i].id < todos[j].id; } else { assert todos[j].id < todos[i].id; }
    }
  }

  /** `todos.findIndex((todo) => todo.id === id)`: the first position holding
      the id, or -1 when no item has it. */
  function IndexOfId(todos: TodoList, id: int): (k: int)
    ensures -1 <= k < |todos|
    ensures k == -1 <==> !HasId(todos, id)
    ensures 0 <= k ==> todos[k].id == id && forall j :: 0 <= j < k ==> todos[j].id != id
  {
    FindIndex(todos, (t: Item) => t.id == id)
  }

  // ---------------------------------------------------------------- submit

  /** The id a new item gets: 1 on an empty list, otherwise one more than
      the id of the last item. On a list whose ids increase this is one more
      than the largest id present, so the new id is fresh. */
  function NextId(todos: TodoList): (id: int)
    ensures |todos| == 0 ==> id == 1
    ensures |todos| > 0 ==> HasId(todos, id - 1) && id - 1 == todos[|todos| - 1].id
    ensures IdsIncreasing(todos) ==> forall i :: 0 <= i < |todos| ==> todos[i].id < id
  {
    if |todos| <= 0 then 1 else todos[|todos| - 1].id + 1
  }

  /** The submit handler: a description that trims to nothing leaves the list
      alone; any other description, untrimmed, becomes a new unchecked item at
      the end, and every earlier item is kept as it was. */
  function Add(todos: TodoList, description: string): (r: TodoList)
    ensures IsBlank(description) ==> r == todos
    ensures !IsBlank(description) ==>
      && |r| == |todos| + 1
      && r[..|todos|] == todos
      && r[|todos|].id == NextId(todos)
      && r[|todos|].description == description
      && !r[|todos|].checked
    ensures IdsIncreasing(todos) ==> IdsIncreasing(r)
  {
    if |Trim(description)| > 0 then
      todos + [Item(NextId(todos), description, false)]
    else
      todos
  }

  // -------------------------------------------------------------- checkbox

  /** The list the checkbox handler builds: every item is copied, and its
      `checked` flag is negated exactly when its id is the one clicked. */
  function Toggle(todos: TodoList, id: int): (r: TodoList)
    ensures |r| == |todos|
    ensures forall i :: 0 <= i < |r| ==>
      r[i].id == todos[i].id && r[i].description == todos[i].description
    ensures forall i :: 0 <= i < |r| ==> (r[i].checked != todos[i].checked <==> todos[i].id == id)
  {
    seq(|todos|, i requires 0 <= i < |todos| =>
      todos[i].(checked := if todos[i].id == id then !todos[i].checked else todos[i].checked))
  }

  /** Clicking the same checkbox twice restores the list. */
  lemma ToggleTwice(todos: TodoList, id: int)
    ensures Toggle(Toggle(todos, id), id) == todos
  {
    var r := Toggle(Toggle(todos, id), id);
    assert forall i :: 0 <= i < |todos| ==> r[i] == todos[i];
  }

  /** Toggling an id no item has changes nothing. */
  lemma ToggleAbsent(todos: TodoList, id: int)
    requires !HasId(todos, id)
    ensures Toggle(todos, id) == todos
  {
    var r := Toggle(todos, id);
    assert forall i :: 0 <= i < |todos| ==> r[i] == todos[i];
  }

  /** With distinct ids, a toggle of a present id changes exactly one item:
      the one at the id's position. */
  lemma ToggleChangesOne(todos: TodoList, id: int)
    requires IdsDistinct(todos) && HasId(todos, id)
    ensures var k := IndexOfId(todos, id); var r := Toggle(todos, id);
      && r[k] == todos[k].(checked := !todos[k].checked)
      && forall i :: 0 <= i < |todos| && i != k ==> r[i] == todos[i]
  {
  }

  lemma TogglePreservesIds(todos: TodoList, id: int)
    ensures IdsIncreasing(todos) <==> IdsIncreasing(Toggle(todos, id))
  {
  }

  /** What a checkbox click may set off besides replacing the list: nothing,
      or the celebration animation staggered out from index `from`. */
  datatype Celebration = Quiet | Celebrate(from: int)

  datatype CheckOutcome = CheckOutcome(todos: TodoList, celebration: Celebration)

  /** The checkbox handler. The celebration fires when every item of the
      toggled list is checked (so also on an empty list), and its stagger is
      anchored at the first unchecked index of the list as it was before the
      click, or at -1 when there was none. */
  function HandleChecked(todos: TodoList, id: int): (r: CheckOutcome)
    ensures r.todos == Toggle(todos, id)
    ensures r.celebration.Celebrate? <==> AllChecked(r.todos)
    ensures r.celebration.Celebrate? ==>
      var k := r.celebration.from;
      && -1 <= k < |todos|
      && (k == -1 <==> AllChecked(todos))
      && (0 <= k ==> !todos[k].checked && forall j :: 0 <= j < k ==> todos[j].checked)
      && (0 <= k ==> todos[k].id == id)
  {
    var after := Toggle(todos, id);
    if Every(after, (t: Item) => t.checked) then
      CheckOutcome(after, Celebrate(FindIndex(todos, (t: Item) => !t.checked)))
    else
      CheckOutcome(after, Quiet)
  }

  /** With distinct ids the stagger anchor of a celebration is never a stale
      position: it is exactly where the clicked item sits. */
  lemma CelebrationAnchorIsClickedItem(todos: TodoList, id: int)
    requires IdsDistinct(todos)
    requires HandleChecked(todos, id).celebration.Celebrate?
    requires HandleChecked(todos, id).celebration.from >= 0
    ensures HandleChecked(todos, id).celebration.from == IndexOfId(todos, id)
  {
    var k := HandleChecked(todos, id).celebration.from;
    assert todos[k].id == id;
  }

  /** The anchor is -1 exactly when every item was already checked and the
      click named no item (the list is then left as it was). */
  lemma CelebrationWithoutAnchor(todos: TodoList, id: int)
    ensures HandleChecked(todos, id).celebration == Celebrate(-1)
        <==> AllChecked(todos) && !HasId(todos, id)
  {
    var r := HandleChecked(todos, id);
    if AllChecked(todos) && !HasId(todos, id) {
      ToggleAbsent(todos, id);
    }
  }

  /** With distinct ids, a click celebrates with a real anchor exactly when
      the clicked item was the only unchecked one. */
  lemma CelebratesIffLastUnchecked(todos: TodoList, id: int)
    requires IdsDistinct(todos)
    ensures (var c := HandleChecked(todos, id).celebration; c.Celebrate? && c.from >= 0)
        <==> HasId(todos, id)
             && !todos[IndexOfId(todos, id)].checked
             && forall j :: 0 <= j < |todos| && todos[j].id != id ==> todos[j].checked
  {
  }

  // ---------------------------------------------------------------- remove

  /** The remove handler: `todos.splice(todos.findIndex(...), 1)`. The item
      at the first position holding the id is cut out and the rest keep
      their order. */
  function Remove(todos: TodoList, id: int): (r: TodoList)
    ensures HasId(todos, id) ==>
      var k := IndexOfId(todos, id);
      && |r| == |todos| - 1
      && r == todos[..k] + todos[k + 1..]
      && multiset(r) + multiset{todos[k]} == multiset(todos)
    ensures !HasId(todos, id) ==> |r| == if |todos| == 0 then 0 else |todos| - 1
  {
    var k := IndexOfId(todos, id);
    if k >= 0 then SpliceOneAt(todos, k); Splice(todos, k, 1)
    else Splice(todos, k, 1)
  }

  /** The quirk of the remove handler: for an id no item has, `findIndex`
      gives -1 and `splice(-1, 1)` then drops the LAST item of a non-empty
      list. */
  lemma RemoveAbsentDropsLast(todos: TodoList, id: int)
    requires !HasId(todos, id)
    ensures |todos| > 0 ==> Remove(todos, id) == todos[..|todos| - 1]
    ensures |todos| == 0 ==> Remove(todos, id) == []
  {
    SpliceMinusOne(todos);
  }

  /** With distinct ids, removing a present id removes that item and only
      that item. */
  lemma RemoveDeletesOnlyTarget(todos: TodoList, id: int)
    requires IdsDistinct(todos) && HasId(todos, id)
    ensures !HasId(Remove(todos, id), id)
    ensures forall x :: x in todos && x.id != id ==> x in Remove(todos, id)
  {
    var k := IndexOfId(todos, id);
    var r := Remove(todos, id);
    assert todos == todos[..k] + [todos[k]] + todos[k + 1..];
  }

  /** With distinct ids, removing the newest item's id drops just that item. */
  lemma RemoveNewest(todos: TodoList)
    requires IdsDistinct(todos) && |todos| > 0
    ensures Remove(todos, todos[|todos| - 1].id) == todos[..|todos| - 1]
  {
    assert IndexOfId(todos, todos[|todos| - 1].id) == |todos| - 1;
  }

  /** Cutting one element out of a list with increasing ids keeps them
      increasing. */
  lemma DeleteAtKeepsIncreasing(todos: TodoList, k: int)
    requires IdsIncreasing(todos) && 0 <= k < |todos|
    ensures IdsIncreasing(todos[..k] + todos[k + 1..])
  {
    var r := todos[..k] + todos[k + 1..];
    forall i, j | 0 <= i < j < |r|
      ensures r[i].id < r[j].id
    {
      var i' := if i < k then i else i + 1;
      var j' := if j < k then j else j + 1;
      assert r[i] == todos[i'] && r[j] == todos[j'];
    }
  }

  lemma RemovePreservesIncreasing(todos: TodoList, id: int)
    ensures IdsIncreasing(todos) ==> IdsIncreasing(Remove(todos, id))
  {
    if IdsIncreasing(todos) && |todos| > 0 {
      if HasId(todos, id) {
        DeleteAtKeepsIncreasing(todos, IndexOfId(todos, id));
      } else {
        RemoveAbsentDropsLast(todos, id);
        DeleteAtKeepsIncreasing(todos, |todos| - 1);
        assert todos[..|todos| - 1] + todos[|todos|..] == todos[..|todos| - 1];
      }
    }
  }

  // ------------------------------------------------------------------ view

  /** The filter callback: does the row's `checked` equal the flag? */
  function Shown(filterButton: bool): Item -> bool {
    (t: Item) => t.checked == filterButton
  }

  /** The rows the list area shows: the items whose `checked` equals the
      filter flag, most recent first
      (`todos.filter((todo) => todo.checked === filterButton).toReversed()`). */
  function Visible(todos: TodoList, filterButton: bool): (r: TodoList)
    ensures forall x :: x in r <==> x in todos && x.checked == filterButton
    ensures multiset(r) <= multiset(todos)
  {
    var shown := Filter(todos, Shown(filterButton));
    ReversedSameElements(shown);
    Reversed(shown)
  }

  /** The view holds every occurrence of a matching item and none of the
      others. */
  lemma VisibleCounts(todos: TodoList, filterButton: bool, x: Item)
    ensures multiset(Visible(todos, filterButton))[x]
         == if x.checked == filterButton then multiset(todos)[x] else 0
  {
    FilterCounts(todos, Shown(filterButton), x);
  }

  /** The view is in reverse list order, for every list: an item created
      after all others is shown first when it matches the filter, and the
      rest of the view is unchanged. */
  lemma VisibleAppend(todos: TodoList, x: Item, filterButton: bool)
    ensures Visible(todos + [x], filterButton)
         == (if x.checked == filterButton then [x] else []) + Visible(todos, filterButton)
  {
    var p := Shown(filterButton);
    var f := Filter(todos, p);
    var g := Filter([x], p);
    assert g == if p(x) then [x] else [] by {
      assert [x][1..] == [];
    }
    assert Reversed(g) == g;
    FilterAppend(todos, [x], p);
    ReversedAppend(f, g);
    calc {
      Visible(todos + [x], filterButton);
      Reversed(Filter(todos + [x], p));
      Reversed(f + g);
      Reversed(g) + Reversed(f);
      g + Visible(todos, filterButton);
    }
  }

  /** The pending view and the done view split the list: together they hold
      every item exactly as often as the list does, and share none. */
  lemma VisiblePartition(todos: TodoList)
    ensures multiset(Visible(todos, false)) + multiset(Visible(todos, true)) == multiset(todos)
    ensures multiset(Visible(todos, false)) !! multiset(Visible(todos, true))
  {
    var pending, done := Visible(todos, false), Visible(todos, true);
    FilterPartition(todos, Shown(false), Shown(true));
    assert multiset(pending) == multiset(Filter(todos, Shown(false)));
    assert multiset(done) == multiset(Filter(todos, Shown(true)));
    forall x | x in multiset(pending)
      ensures x !in multiset(done)
    {
      assert x in pending;
    }
  }

  /** Filtering keeps the list order, so increasing ids stay increasing. */
  lemma {:induction false} FilterKeepsIdOrder(todos: TodoList, p: Item -> bool)
    requires IdsIncreasing(todos)
    ensures IdsIncreasing(Filter(todos, p))
  {
    if |todos| > 0 {
      var tail := todos[1..];
      var rest := Filter(tail, p);
      FilterKeepsIdOrder(tail, p);
      var head: TodoList := if p(todos[0]) then [todos[0]] else [];
      var f := head + rest;
      assert Filter(todos, p) == f;
      forall i, j | 0 <= i < j < |f|
        ensures f[i].id < f[j].id
      {
        if i < |head| {
          assert f[j] in tail;
        } else {
          assert f[i] == rest[i - |head|];
        }
      }
    }
  }

  /** The view lists the matching items in reverse creation order: on a list
      whose ids increase, the shown ids strictly decrease. */
  lemma VisibleNewestFirst(todos: TodoList, filterButton: bool)
    ensures IdsIncreasing(todos) ==>
      var v := Visible(todos, filterButton);
      forall i, j :: 0 <= i < j < |v| ==> v[i].id > v[j].id
  {
    if IdsIncreasing(todos) {
      FilterKeepsIdOrder(todos, Shown(filterButton));
    }
  }
}
